=== FILE: README.md ===
# ROS 2 rmw: service endpoint info, security files and enclave options in Dafny

This project models four small, sequential pieces of the ROS 2 middleware
interface layer (`rmw`), and proves properties of the model:

- **Service endpoint info record** (`rmw_service_endpoint_info_t`). The record
  holds three owned strings (node name, node namespace, service type), a type
  hash copied by value, an endpoint type, an endpoint count, and two owned
  arrays of `endpoint_count` entries (GIDs and QoS profiles). The model covers
  the zero record, the seven setters and `fini`.
- **Service endpoint info array** (`rmw_service_endpoint_info_array_t`): zero,
  `check_zero`, `init_with_size` and `fini`. `fini` is the per-record `fini`
  applied to every element in index order, followed by freeing the buffer.
- **Security file resolver** (`get_security_files`,
  `get_security_files_support_pkcs`). For each of the six required DDS-Security
  attributes it tries an ordered list of candidate files under the secure
  root; the first candidate whose processor succeeds wins. The optional `CRL`
  entry is added when `crl.pem` is a regular file.
- **Enclave options**: `rmw_enclave_options_copy` and `rmw_enclave_options_fini`.

Modelling conventions:

- Every C function becomes a pure Dafny function.
- A C pointer argument is an `Option` (`None` is NULL).
- Each function returns the `rmw_ret_t` together with the state the caller
  observes afterwards.
- The allocator is a `Heap`: the set of live allocations and the next fresh
  address.
- Whether an allocation succeeds is a boolean parameter (`allocOk`).
- An allocator argument is NULL, invalid or valid (`AllocatorRef`).
- The resolver's filesystem is a map from path to
  `(isRegularFile, openable, content)`; paths not in the map do not exist.

Files:

- `wrappers.dfy`: `Option`.
- `allocator.dfy`: return codes, heap, allocation and deallocation.
- `service_endpoint_info.dfy`: the record.
- `service_endpoint_info_array.dfy`: the array.
- `security.dfy`: the resolver.
- `enclave.dfy`: the enclave options.

## Model

| member | source | states |
|---|---|---|
| ServiceEndpointInfo.ZeroInitialized | src/service_endpoint_info.c:26-32 | The zero record has no node name, namespace, service type, GIDs or QoS profiles. Its endpoint type is INVALID, its count is 0, and it owns no buffer. |
| ServiceEndpointInfo.Fini | src/service_endpoint_info.c:88-129 | INVALID_ARGUMENT exactly when the record or the allocator is NULL; the record and the heap are then unchanged. Otherwise the result is OK, the record is the zero record, and exactly the five buffers it owned are released. Nothing is allocated in either case. |
| ServiceEndpointInfo.FiniOfZeroIsNoOp | src/service_endpoint_info.c:104-128 | Finalizing a zero record succeeds, and both the record and the heap stay as they were (idempotence). |
| ServiceEndpointInfo.CopyStr | src/service_endpoint_info.c:131-161 | A NULL string or NULL allocator gives INVALID_ARGUMENT and leaves the field unchanged. BAD_ALLOC exactly when both are present and the duplication fails; the field is then NULL and the heap unchanged. Success stores a copy with equal content in a newly allocated buffer. |
| ServiceEndpointInfo.SetServiceType | src/service_endpoint_info.c:163-177 | INVALID_ARGUMENT exactly when the record, the string or the allocator is NULL, with no change. BAD_ALLOC exactly when the arguments pass and the allocation fails. Only `service_type` is written: on success a fresh copy of the argument, on BAD_ALLOC NULL with the heap unchanged. |
| ServiceEndpointInfo.SetServiceTypeHash | src/service_endpoint_info.c:179-189 | INVALID_ARGUMENT exactly when the record or the hash is NULL, with no change. Otherwise only `service_type_hash` changes, and it becomes the given hash. No allocation. |
| ServiceEndpointInfo.SetNodeName | src/service_endpoint_info.c:191-205 | INVALID_ARGUMENT exactly when the record, the name or the allocator is NULL, with no change. BAD_ALLOC exactly when the arguments pass and the allocation fails. Only `node_name` is written: on success a fresh copy of the argument, on BAD_ALLOC NULL with the heap unchanged. |
| ServiceEndpointInfo.SetNodeNamespace | src/service_endpoint_info.c:207-223 | The same as SetNodeName, for `node_namespace`. |
| ServiceEndpointInfo.SetEndpointType | src/service_endpoint_info.c:225-238 | INVALID_ARGUMENT exactly when the record is NULL. Any endpoint type is accepted, and only `endpoint_type` changes. |
| ServiceEndpointInfo.SetEndpointCount | src/service_endpoint_info.c:240-257 | INVALID_ARGUMENT exactly when the record is NULL or the count is not 1 or 2, with no change. On OK only `endpoint_count` changes. |
| ServiceEndpointInfo.SetGids | src/service_endpoint_info.c:259-297 | INVALID_ARGUMENT exactly for a NULL record, `size > RMW_GID_STORAGE_SIZE`, a count outside {1, 2} or a NULL allocator, with no change. BAD_ALLOC exactly when the checks pass and the allocation fails; the field is then NULL and the heap unchanged. Only `endpoint_gids` is written and `endpoint_count` is not touched. On success the field is a fresh buffer of `count` slots; slot i holds input bytes `16*i .. 16*i+15`. |
| ServiceEndpointInfo.SlotsFlattenRoundTrip | src/service_endpoint_info.c:293-294 | Concatenating the stored GID slots gives back exactly the first `count * RMW_GID_STORAGE_SIZE` input bytes. |
| ServiceEndpointInfo.SetQosProfiles | src/service_endpoint_info.c:299-329 | INVALID_ARGUMENT exactly for a NULL record, NULL profiles or a count outside {1, 2}, with no change. Only `qos_profiles` is written: on success a fresh buffer holding the first `count` input profiles in order. BAD_ALLOC exactly when the checks pass and the allocation fails, and the field is then NULL with the heap unchanged. |
| ServiceEndpointInfo.PopulateThenFiniReleasesEverything | include/rmw/service_endpoint_info.h:43-54 | Calling all seven setters on a zero record gives a record of the documented layout: both arrays hold `endpoint_count` entries. Finalizing it then restores the zero record and the live set the heap started with. |
| ServiceEndpointInfo.StringSettersKeepOwnership | src/service_endpoint_info.c:131-223 | The three string setters on a zero record all succeed and leave both arrays NULL. The live set afterwards is the old live set plus exactly the buffers the record now owns, and none of those was live before. |
| ServiceEndpointInfo.ArraySettersKeepOwnership | src/service_endpoint_info.c:259-329 | `set_gids` then `set_qos_profiles` on a record without arrays both succeed. Both arrays then hold `count` entries, no other field changes, and the live set becomes the old one plus exactly the two array buffers, which are distinct and were not live before. |
| ServiceEndpointInfo.ResettingNodeNameLeaksFirstCopy | src/service_endpoint_info.c:155-158 | A string setter overwrites its field without freeing it. After setting the node name twice and finalizing, the first copy is still allocated. |
| ServiceEndpointInfoArray.ZeroInitializedArray | src/service_endpoint_info_array.c:21-27 | The zero array has size 0 and no buffer. |
| ServiceEndpointInfoArray.CheckZero | src/service_endpoint_info_array.c:29-42 | INVALID_ARGUMENT exactly for NULL. OK exactly for the zero array. ERROR exactly when the size is non-zero or a buffer is present. |
| ServiceEndpointInfoArray.InitWithSize | src/service_endpoint_info_array.c:44-69 | INVALID_ARGUMENT exactly for a NULL allocator or NULL array, with no change. BAD_ALLOC exactly when both are present and the allocation fails; the buffer is then NULL, the old size is kept and the heap is unchanged. OK sets the size to n and stores a fresh buffer of n zero records. |
| ServiceEndpointInfoArray.Fini | src/service_endpoint_info_array.c:71-99 | A NULL allocator or NULL array gives INVALID_ARGUMENT and changes nothing. An OK result leaves the zero array. |
| ServiceEndpointInfoArray.FiniRecordsSucceeds | src/service_endpoint_info_array.c:86-93 | With a usable allocator the element loop returns OK. Every element in the range becomes the zero record and the other elements are untouched. Exactly the buffers those elements owned are released. |
| ServiceEndpointInfoArray.FiniSucceedsOnValidArguments | src/service_endpoint_info_array.c:86-98 | With both arguments present, array `fini` always returns OK, so the early return on a failing element cannot happen. The array becomes the zero array, and its buffer plus every element's buffers are released. |
| ServiceEndpointInfoArray.InitThenFiniRestoresZero | src/service_endpoint_info_array.c:44-99 | `init_with_size(n)` on a zero array, followed by `fini`, returns to the zero array with the live set the heap started with. |
| Security.FirstTokenFindsToken | rmw_security_common/src/security.cpp:60-62 | Reading one token from the file finds the first run of non-whitespace, preceded only by whitespace. It fails exactly when the content is all whitespace. |
| Security.FirstTokenIsTheOnlyToken | rmw_security_common/src/security.cpp:60-62 | Any string that meets the characterization of the first token is the one read (uniqueness). |
| Security.ProcessFileUri | rmw_security_common/src/security.cpp:28-40 | Succeeds exactly when the path is a regular file, and the value is then the prefix followed by the path's generic form (`GenericString`). |
| Security.GenericStringCollapsesSeparators | rmw_security_common/src/security.cpp:38 | `generic_string()` keeps every non-separator character in order and leaves no two separators in a row. A path without repeated separators comes back unchanged, so the operation is idempotent. |
| Security.JoinOfCleanRootIsGeneric | rmw_security_common/src/security.cpp:136-138 | Joining a file name without `/` to a root without repeated separators gives a path that `generic_string()` leaves unchanged. A successful FILE URI processor on that path then stores the prefix followed by the joined path itself. |
| Security.DoubledSeparatorCollapses | rmw_security_common/src/security.cpp:38 | In the generic form, two adjacent separators anywhere in a path count as one. |
| Security.DoubledSeparatorInRootIsCollapsed | rmw_security_common/src/security.cpp:136-138 | A secure root written with `//` gives the same generic path as the same root written with `/`. The filesystem is asked about each native spelling separately. So the stored FILE URI value is the same whenever both spellings are regular files or neither is. |
| Security.ProcessPkcsUri | rmw_security_common/src/security.cpp:42-68 | Succeeds only with PKCS#11 support and an openable file. The value is the file's first token, it starts with `pkcs11:`, and no prefix is applied. Conversely, an openable file whose first token starts with `pkcs11:` succeeds when PKCS#11 is supported. |
| Security.FirstSuccessIsFirstWinner | rmw_security_common/src/security.cpp:135-142 | A candidate list yields nothing exactly when every processor fails. Otherwise the value is that of the first candidate that succeeds, and later candidates do not matter. |
| Security.ResolveRequiredSpec | rmw_security_common/src/security.cpp:130-148 | The attribute loop yields a map exactly when every attribute resolves. The map is each attribute's value stored under its name, a function of the set of attributes only. |
| Security.ResolutionIgnoresOrder | rmw_security_common/src/security.cpp:105-148 | Visiting the required attributes in any order with the same members gives the same result, since `unordered_map` iteration order is unspecified. |
| Security.RequiredLoopSpec | rmw_security_common/src/security.cpp:105-148 | On the fixed table the loop fails exactly when some required attribute does not resolve. Otherwise its keys are exactly the six required names, each holding its attribute's value. |
| Security.CrlIsAFileUri | rmw_security_common/src/security.cpp:150-156 | `CRL` resolves exactly when `crl.pem` under the root is a regular file, and its value is the prefix followed by the generic form of that path. |
| Security.ResolveWith | rmw_security_common/src/security.cpp:128-156 | For any way of resolving single attributes: no map exactly when a required attribute fails. Otherwise the keys are the six required names plus `CRL` exactly when `CRL` resolves, each holding its attribute's value. |
| Security.ResolvedValuesComeFromResolver | rmw_security_common/src/security.cpp:128-156 | The resolution map holds only values the single-attribute resolution produced. So any property of strings that every attribute's value has, such as starting with the prefix, holds of every entry of the map. |
| Security.Resolve | rmw_security_common/src/security.cpp:124-156 | No map exactly when some required attribute does not resolve. Otherwise the keys are the six required names, plus `CRL` exactly when `crl.pem` is a regular file. Each value is its attribute's resolution, and `CRL` holds the prefix followed by the generic form of the path. |
| Security.Pkcs11ReferencePreferred | rmw_security_common/src/security.cpp:105-117 | For IDENTITY_CA, CERTIFICATE, PRIVATE_KEY and PERMISSIONS_CA, a usable `.p11` reference file wins. Otherwise the value comes from the `.pem` file. |
| Security.SignedDocumentsComeFromP7s | rmw_security_common/src/security.cpp:118-121 | GOVERNANCE and PERMISSIONS are each resolved from their single `.p7s` file as a FILE URI. |
| Security.FirstSuccessWithoutPkcs11 | rmw_security_common/src/security.cpp:49-51 | Without PKCS#11 support, any candidate list resolves only to prefixed FILE URI values. |
| Security.GetSecurityFilesSupportPkcs | rmw_security_common/src/security.cpp:78-175 | The result is always OK, ERROR or INVALID_ARGUMENT. INVALID_ARGUMENT exactly when the prefix, root or map is NULL. ERROR exactly when a required attribute does not resolve. The caller's map is untouched unless the result is OK, and then the resolved entries are added over it. |
| Security.GetSecurityFiles | rmw_security_common/src/security.cpp:70-76 | The same as the PKCS#11-enabled entry point with support off, and every resolved value starts with the prefix. |
| Security.WithoutPkcs11EveryValueIsPrefixed | rmw_security_common/src/security.cpp:70-76 | With PKCS#11 support off, every value of a successful resolution, `CRL` included, starts with the prefix. |
| Security.NullArgumentIgnoresFileSystem | rmw_security_common/src/security.cpp:84-87 | A NULL argument gives the same result whatever the filesystem holds: it is rejected before any file is examined. |
| Enclave.Copy | rmw/src/enclave.c:24-41 | INVALID_ARGUMENT exactly for a NULL source, a NULL destination or an invalid allocator, with nothing changed. BAD_ALLOC leaves the destination and heap unchanged. OK stores a fresh copy of the source in the destination. |
| Enclave.Fini | rmw/src/enclave.c:43-53 | INVALID_ARGUMENT exactly for a NULL string or an invalid allocator, with nothing freed. Otherwise OK, with exactly that string's buffer released. |
| Enclave.CopyThenFiniRestoresLiveSet | rmw/src/enclave.c:34-52 | A successful copy holds the source's content, and finalizing it leaves exactly the allocations that were live before the copy. |

## Left out

- Error messages (`RMW_SET_ERROR_MSG`) and the fault-injection macros (`RCUTILS_CAN_RETURN_WITH_ERROR_OF`) are not modelled; they do not affect results outside fault-injection builds.
- The real filesystem and streams (`is_regular_file`, `ifstream`) are replaced by an oracle keyed by the joined native path. Two spellings of one file, such as `a//b` and `a/b`, are two keys of the oracle.
- Security.Join: `std::filesystem::path::operator/=` is modelled only for the case the resolver uses. The file name is relative, non-empty and has no separator, and paths are POSIX. A `/` is inserted unless the root is empty or already ends in one.
- Security.GenericString: `generic_string()` is modelled as POSIX libstdc++ behaves: each run of separators becomes a single `/`, and `.` and `..` elements are kept. Windows root names are not modelled.
- Exceptions thrown by the filesystem library are not modelled.
- `rcutils_string_map_reserve` and `rcutils_string_map_set` are foreign containers. The model assumes both succeed, so the ERROR return after a failed reserve and the partial insertion after a failed set are not represented.
- Security.GetSecurityFilesSupportPkcs: an OK result always writes the whole resolved map, because the string map writes are assumed to succeed (see above).
- `RMW_GID_STORAGE_SIZE` (16) and the 32-byte type hash come from `rmw/types.h` and `rosidl` headers, which are not part of this model; the values are fixed constants here.
- Raw memory layout, `sizeof`, `memset` and `memcpy` are not modelled. QoS profiles and type hashes are opaque values and a GID slot is a 16-byte sequence.
- `size_t` overflow of `count * size` in the allocation requests cannot happen for counts 1 and 2, and the array's `sizeof(*info_array) * size` overflow is not modelled; sizes are unbounded naturals.
- Strings are sequences of characters without the terminating NUL, and a copy keeps the whole sequence. A NUL character inside a string is not treated as a terminator. The C code would stop at the first NUL in three places: `rcutils_strdup` (service_endpoint_info.c:155, enclave.c:34), and `c_str()` when a resolved value, such as a PKCS#11 token read from a file, is written into the string map (security.cpp:167). Such strings come back whole in the model, where the C code would truncate them.
- ServiceEndpointInfo.SetGids: the header documents an INVALID_ARGUMENT for a NULL `gids` buffer, but the code never checks it and copies from it. The model follows the code and requires the buffer to hold `count` slots whenever the copy happens.
- ServiceEndpointInfo.SetGids: the `size` argument is only validated against `RMW_GID_STORAGE_SIZE`; the copy always takes whole slots, as in the code.
- ServiceEndpointInfo.SetQosProfiles: the code never checks the allocator, so a usable allocator (and at least `count` input profiles) is a precondition.
- ServiceEndpointInfo.Fini: the record code checks the allocator only for NULL, whereas the header speaks of a valid allocator, so a non-NULL invalid allocator is excluded by precondition where the code would call through it. The same holds for the string setters, SetGids and the array operations.
- ServiceEndpointInfoArray.InitWithSize: the header promises the array is left unchanged on failure and that a non-zero array is rejected; the code does neither, and the model follows the code.
- ServiceEndpointInfoArray.Fini: its own contract states only the INVALID_ARGUMENT direction and the shape of an OK result; that it always succeeds and what it releases is stated separately by ServiceEndpointInfoArray.FiniSucceedsOnValidArguments.
- ServiceEndpointInfoArray.Fini: an array whose `size` is non-zero but whose buffer is NULL is excluded by precondition. A failed `init_with_size` on a non-empty array leaves exactly this state (service_endpoint_info_array.c:58-63 keeps the old size). The C `fini` would then dereference NULL at service_endpoint_info_array.c:88-89, which is undefined behaviour and has no result to model.
- ServiceEndpointInfoArray.Fini: the header's precondition that `fini` receives the allocator used by `init_with_size` is not expressible, since allocators have no identity in the model.
- The documented reader-then-writer order of the two entries when the count is 2 is a convention of the callers; the model does not distinguish the two entries.
- Freeing is modelled as removal from the live set whether or not the address was live; double frees and frees of foreign pointers (undefined behaviour in C) are not detected.
- Enclave.Fini: the caller's pointer is left dangling after the free, as in the code; the model does not track the caller's copy of the pointer.
- `rmw/src/init_options.c` only returns a static zero structure, and `rmw/include/rmw/subscription_options.h` is a bare declaration; neither is modelled.
- Thread safety is only documented, not implemented, so there is nothing to model.

=== FILE: allocator.dfy ===
/**
 * Return codes and the abstract allocator shared by every component.
 *
 * The allocator is modelled by its observable effect: the set of live
 * allocations and the next address it will hand out.  Whether a particular
 * allocation succeeds is not decided by the model; every operation that
 * allocates takes the allocator's answer as a boolean parameter.
 */
module Allocator {
  import opened Wrappers

  /** The `rmw_ret_t` values the modelled code returns. */
  datatype RetCode = Ok | Error | BadAlloc | InvalidArgument

  type Ptr = nat

  datatype HeapState = HeapState(live: set<Ptr>, next: Ptr)

  /** Allocator state; every live address lies below `next`, so `next` is always fresh. */
  type Heap = h: HeapState | forall p :: p in h.live ==> p < h.next
    witness HeapState({}, 0)

  /**
   * The `rcutils_allocator_t *` a caller passes: NULL, non-NULL but rejected by
   * `rcutils_allocator_is_valid`, or a usable allocator.
   */
  datatype AllocatorRef = NullAllocator | InvalidAllocator | ValidAllocator

  /** A heap buffer owned by a structure: its address and what it holds. */
  datatype Owned<T> = Owned(ptr: Ptr, contents: T)

  datatype Allocation = Allocation(ptr: Option<Ptr>, heap: Heap)

  /** `allocator->allocate`: a fresh address on success, NULL and no effect on failure. */
  function Allocate(h: Heap, succeeds: bool): (r: Allocation)
    ensures succeeds ==> r.ptr.Some? && r.ptr.value !in h.live
                         && r.heap.live == h.live + {r.ptr.value}
    ensures !succeeds ==> r.ptr.None? && r.heap == h
  {
    if succeeds then Allocation(Some(h.next), HeapState(h.live + {h.next}, h.next + 1))
    else Allocation(None, h)
  }

  /** The address held by a possibly-NULL owned pointer, as a set. */
  function PtrOf<T>(o: Option<Owned<T>>): set<Ptr>
  {
    match o
    case None => {}
    case Some(b) => {b.ptr}
  }

  /** `allocator->deallocate`; deallocating NULL does nothing. */
  function Deallocate<T>(h: Heap, o: Option<Owned<T>>): (r: Heap)
    ensures r.live == h.live - PtrOf(o) && r.next == h.next
  {
    HeapState(h.live - PtrOf(o), h.next)
  }

  /**
   * `o` is a copy of `v` in a buffer that was not live in `h`, and the
   * allocation of that buffer is the only difference between `h` and `h'`.
   */
  ghost predicate FreshCopy<T>(h: Heap, h': Heap, o: Option<Owned<T>>, v: T)
  {
    && o.Some?
    && o.value.contents == v
    && o.value.ptr !in h.live
    && h'.live == h.live + {o.value.ptr}
  }
}

=== FILE: enclave.dfy ===
/**
 * The enclave option helpers: copying the enclave name into a newly allocated
 * string and releasing it again.
 */
module Enclave {
  import opened Wrappers
  import opened Allocator

  /**
   * The `char ** dst` out-parameter: NULL, or the caller's slot holding a
   * possibly-NULL string.
   */
  datatype Target = NullTarget | Slot(str: Option<Owned<string>>)

  datatype CopyStep = CopyStep(ret: RetCode, dst: Target, heap: Heap)

  datatype FiniStep = FiniStep(ret: RetCode, heap: Heap)

  /**
   * `rmw_enclave_options_copy`: arguments are checked in the order source,
   * destination, allocator; the slot is overwritten only on success and its
   * previous contents are not released.
   */
  function Copy(src: Option<string>, allocator: AllocatorRef, dst: Target, h: Heap, allocOk: bool)
    : (r: CopyStep)
    ensures r.ret == InvalidArgument <==> src.None? || dst.NullTarget? || !allocator.ValidAllocator?
    ensures r.ret == BadAlloc <==> r.ret != InvalidArgument && !allocOk
    ensures r.ret == Ok <==> r.ret != InvalidArgument && allocOk
    ensures r.ret != Ok ==> r.dst == dst && r.heap == h
    ensures r.ret == Ok ==> r.dst.Slot? && FreshCopy(h, r.heap, r.dst.str, src.value)
  {
    if src.None? || dst.NullTarget? || !allocator.ValidAllocator? then
      CopyStep(InvalidArgument, dst, h)
    else
      var a := Allocate(h, allocOk);
      match a.ptr
      case None => CopyStep(BadAlloc, dst, h)
      case Some(p) => CopyStep(Ok, Slot(Some(Owned(p, src.value))), a.heap)
  }

  /** `rmw_enclave_options_fini`: releases the string; the caller's pointer is left dangling. */
  function Fini(enclaveOptions: Option<Owned<string>>, allocator: AllocatorRef, h: Heap)
    : (r: FiniStep)
    ensures r.ret == InvalidArgument <==> enclaveOptions.None? || !allocator.ValidAllocator?
    ensures r.ret in {Ok, InvalidArgument}
    ensures r.ret == InvalidArgument ==> r.heap == h
    ensures r.ret == Ok ==>
              r.heap.live == h.live - {enclaveOptions.value.ptr} && r.heap.next == h.next
  {
    if enclaveOptions.None? || !allocator.ValidAllocator? then FiniStep(InvalidArgument, h)
    else FiniStep(Ok, Deallocate(h, enclaveOptions))
  }

  /** A successful copy released by `Fini` leaves exactly the allocations that were live before. */
  lemma CopyThenFiniRestoresLiveSet(src: string, slot: Option<Owned<string>>, h: Heap)
    ensures
      var c := Copy(Some(src), ValidAllocator, Slot(slot), h, true);
      var f := Fini(c.dst.str, ValidAllocator, c.heap);
      && c.ret == Ok && c.dst.str.value.contents == src
      && f.ret == Ok && f.heap.live == h.live
  {
    var c := Copy(Some(src), ValidAllocator, Slot(slot), h, true);
    assert c.dst.str.value.ptr !in h.live;
  }
}

=== FILE: security.dfy ===
/**
 * The security file resolver of `rmw_security_common`: for each required
 * security attribute it tries an ordered list of candidate files under the
 * secure root, and the first candidate whose processor succeeds gives the
 * attribute's value.  The filesystem is an oracle, so the resolver is a pure
 * function of its arguments and the oracle.
 */
module Security {
  import opened Wrappers
  import opened Allocator

  // ------------------------------------------------------------ table

  datatype Attribute =
    | IdentityCa
    | Certificate
    | PrivateKey
    | PermissionsCa
    | Governance
    | Permissions
    | Crl

  /** The key the attribute is stored under in the result map. */
  function Name(a: Attribute): string
  {
    match a
    case IdentityCa => "IDENTITY_CA"
    case Certificate => "CERTIFICATE"
    case PrivateKey => "PRIVATE_KEY"
    case PermissionsCa => "PERMISSIONS_CA"
    case Governance => "GOVERNANCE"
    case Permissions => "PERMISSIONS"
    case Crl => "CRL"
  }

  /** The attributes every successful resolution provides; `Crl` is optional. */
  const RequiredAttributes: seq<Attribute> :=
    [IdentityCa, Certificate, PrivateKey, PermissionsCa, Governance, Permissions]

  const CrlFileName: string := "crl.pem"

  /** How a candidate file is turned into a value. */
  datatype Processor = FileUriProcessor | Pkcs11UriProcessor

  datatype Candidate = Candidate(fileName: string, processor: Processor)

  /**
   * The candidates of each attribute, highest priority first.  The optional
   * `CRL` file is checked exactly as a FILE URI candidate is.
   */
  function Candidates(a: Attribute): seq<Candidate>
  {
    match a
    case IdentityCa =>
      [Candidate("identity_ca.cert.p11", Pkcs11UriProcessor),
       Candidate("identity_ca.cert.pem", FileUriProcessor)]
    case Certificate =>
      [Candidate("cert.p11", Pkcs11UriProcessor), Candidate("cert.pem", FileUriProcessor)]
    case PrivateKey =>
      [Candidate("key.p11", Pkcs11UriProcessor), Candidate("key.pem", FileUriProcessor)]
    case PermissionsCa =>
      [Candidate("permissions_ca.cert.p11", Pkcs11UriProcessor),
       Candidate("permissions_ca.cert.pem", FileUriProcessor)]
    case Governance => [Candidate("governance.p7s", FileUriProcessor)]
    case Permissions => [Candidate("permissions.p7s", FileUriProcessor)]
    case Crl => [Candidate(CrlFileName, FileUriProcessor)]
  }

  // -------------------------------------------------------- filesystem

  /** What the filesystem reports about one path. */
  datatype FileStatus = FileStatus(isRegularFile: bool, openable: bool, content: string)

  /** Paths the oracle does not list do not exist. */
  type FileSystem = map<string, FileStatus>

  function Stat(fs: FileSystem, path: string): FileStatus
  {
    if path in fs then fs[path] else FileStatus(false, false, "")
  }

  /**
   * `std::filesystem::path::operator/=` for a relative, non-empty file name,
   * POSIX style: a separator is inserted unless the root is empty or already
   * ends in one.  The result is the native path the filesystem is asked about.
   */
  function Join(root: string, fileName: string): string
  {
    if root == [] then fileName
    else if root[|root| - 1] == '/' then root + fileName
    else root + "/" + fileName
  }

  /**
   * `std::filesystem::path::generic_string()` on POSIX: the path is rebuilt
   * from its elements with a single separator between them, so every run of
   * separators collapses to one `/`.
   */
  function GenericString(p: string): (g: string)
    ensures |p| > 0 ==> |g| > 0 && g[0] == p[0]
    decreases |p|
  {
    if |p| < 2 then p
    else if p[0] == '/' && p[1] == '/' then GenericString(p[1..])
    else [p[0]] + GenericString(p[1..])
  }

  /** No two separators in a row. */
  predicate NoRepeatedSeparator(p: string)
  {
    forall i :: 0 <= i < |p| - 1 ==> !(p[i] == '/' && p[i + 1] == '/')
  }

  /** The path without its separators: what `GenericString` must keep. */
  function WithoutSeparators(p: string): string
  {
    if p == [] then [] else (if p[0] == '/' then [] else [p[0]]) + WithoutSeparators(p[1..])
  }

  /**
   * `GenericString` keeps every non-separator character in order, leaves no
   * repeated separator, and changes nothing in a path that has none.
   */
  lemma {:induction false} GenericStringCollapsesSeparators(p: string)
    ensures WithoutSeparators(GenericString(p)) == WithoutSeparators(p)
    ensures NoRepeatedSeparator(GenericString(p))
    ensures NoRepeatedSeparator(p) ==> GenericString(p) == p
    decreases |p|
  {
    if |p| >= 2 {
      var rest := GenericString(p[1..]);
      GenericStringCollapsesSeparators(p[1..]);
      if !(p[0] == '/' && p[1] == '/') {
        var g := [p[0]] + rest;
        assert g[1..] == rest;
        assert WithoutSeparators(g) == (if p[0] == '/' then [] else [p[0]]) + WithoutSeparators(rest);
        forall i | 0 <= i < |g| - 1 ensures !(g[i] == '/' && g[i + 1] == '/') {
          if i > 0 {
            assert g[i] == rest[i - 1] && g[i + 1] == rest[i];
          }
        }
        if NoRepeatedSeparator(p) {
          forall i | 0 <= i < |p[1..]| - 1 ensures !(p[1..][i] == '/' && p[1..][i + 1] == '/') {
            assert p[1..][i] == p[i + 1] && p[1..][i + 1] == p[i + 2];
          }
          assert [p[0]] + p[1..] == p;
        }
      } else {
        assert p[..2] == "//";
      }
    }
  }

  /**
   * Joining a single file name to a root without repeated separators gives a
   * path that `generic_string()` leaves as it is, so a FILE URI value is the
   * prefix followed by the joined path itself.
   */
  lemma JoinOfCleanRootIsGeneric(root: string, fileName: string, prefix: string, fs: FileSystem)
    requires NoRepeatedSeparator(root)
    requires forall i :: 0 <= i < |fileName| ==> fileName[i] != '/'
    ensures GenericString(Join(root, fileName)) == Join(root, fileName)
    ensures var r := ProcessFileUri(prefix, Join(root, fileName), fs);
            r.Some? ==> r.value == prefix + Join(root, fileName)
  {
    var j := Join(root, fileName);
    forall i | 0 <= i < |j| - 1 ensures !(j[i] == '/' && j[i + 1] == '/') {
      if i + 1 >= |root| && |j| - |fileName| <= i {
        assert j[i] == fileName[i - (|j| - |fileName|)];
      } else if i + 1 < |root| {
        assert j[i] == root[i] && j[i + 1] == root[i + 1];
      }
    }
    GenericStringCollapsesSeparators(j);
  }

  /** `generic_string()` drops the second of two adjacent separators. */
  lemma {:induction false} DoubledSeparatorCollapses(x: string, y: string)
    ensures GenericString(x + "//" + y) == GenericString(x + "/" + y)
    decreases |x|
  {
    var p := x + "//" + y;
    var q := x + "/" + y;
    if x == [] {
      assert p[1..] == q;
    } else {
      DoubledSeparatorCollapses(x[1..], y);
      assert p[1..] == x[1..] + "//" + y;
      assert q[1..] == x[1..] + "/" + y;
      assert p[0] == q[0] && p[1] == q[1];
    }
  }

  /**
   * A secure root written with a doubled separator gives the same generic
   * path as the root written with a single one.  The filesystem is asked
   * about each native spelling separately, so the stored FILE URI values
   * agree whenever both spellings name a regular file or both do not.
   */
  lemma DoubledSeparatorInRootIsCollapsed(x: string, y: string, fileName: string,
                                          prefix: string, fs: FileSystem)
    ensures GenericString(Join(x + "//" + y, fileName))
            == GenericString(Join(x + "/" + y, fileName))
    ensures Stat(fs, Join(x + "//" + y, fileName)).isRegularFile
            == Stat(fs, Join(x + "/" + y, fileName)).isRegularFile
            ==> ProcessFileUri(prefix, Join(x + "//" + y, fileName), fs)
                == ProcessFileUri(prefix, Join(x + "/" + y, fileName), fs)
  {
    var sep: string := if y == [] || y[|y| - 1] == '/' then "" else "/";
    assert Join(x + "//" + y, fileName) == x + "//" + (y + sep + fileName);
    assert Join(x + "/" + y, fileName) == x + "/" + (y + sep + fileName);
    DoubledSeparatorCollapses(x, y + sep + fileName);
  }

  // ------------------------------------------------------- first token

  /** The characters `operator>>` treats as separators in the "C" locale. */
  predicate IsSpace(c: char)
  {
    c == ' ' || c == '\t' || c == '\n' || c == '\r' || c == '\U{000B}' || c == '\U{000C}'
  }

  /** Characters up to the first separator. */
  function TakeWord(s: string): (w: string)
    ensures w <= s
    ensures forall k :: 0 <= k < |w| ==> !IsSpace(w[k])
    ensures |w| == |s| || IsSpace(s[|w|])
  {
    if s == [] || IsSpace(s[0]) then [] else [s[0]] + TakeWord(s[1..])
  }

  /** `stream >> std::string`: skip separators, then read one word; fails at end of input. */
  function FirstToken(s: string): Option<string>
  {
    if s == [] then None
    else if IsSpace(s[0]) then FirstToken(s[1..])
    else Some(TakeWord(s))
  }

  /**
   * Reference characterization of the first token: `t` is a non-empty run of
   * non-separators, preceded only by separators and followed by a separator
   * or the end of the input.
   */
  ghost predicate IsFirstToken(s: string, t: string)
  {
    exists i :: 0 <= i && i + |t| <= |s| && TokenAt(s, t, i)
  }

  ghost predicate TokenAt(s: string, t: string, i: nat)
    requires i + |t| <= |s|
  {
    && |t| > 0
    && (forall k :: 0 <= k < i ==> IsSpace(s[k]))
    && s[i .. i + |t|] == t
    && (forall k :: 0 <= k < |t| ==> !IsSpace(t[k]))
    && (i + |t| == |s| || IsSpace(s[i + |t|]))
  }

  lemma {:induction false} FirstTokenFindsToken(s: string)
    ensures FirstToken(s).Some? ==> IsFirstToken(s, FirstToken(s).value)
    ensures FirstToken(s).None? <==> forall k :: 0 <= k < |s| ==> IsSpace(s[k])
  {
    FirstTokenIsAToken(s);
    FirstTokenFailsOnBlank(s);
  }

  lemma {:induction false} FirstTokenIsAToken(s: string)
    ensures FirstToken(s).Some? ==> IsFirstToken(s, FirstToken(s).value)
  {
    if s != [] {
      if IsSpace(s[0]) {
        FirstTokenIsAToken(s[1..]);
        if FirstToken(s[1..]).Some? {
          var t := FirstToken(s[1..]).value;
          var i :| 0 <= i && i + |t| <= |s[1..]| && TokenAt(s[1..], t, i);
          TokenAtShift(s, t, i);
        }
      } else {
        assert TokenAt(s, TakeWord(s), 0);
      }
    }
  }

  /** A token after leading separators stays a token when one more separator is prepended. */
  lemma TokenAtShift(s: string, t: string, i: nat)
    requires s != [] && IsSpace(s[0])
    requires i + |t| <= |s| - 1 && TokenAt(s[1..], t, i)
    ensures TokenAt(s, t, i + 1)
  {
    assert s[i + 1 .. i + 1 + |t|] == s[1..][i .. i + |t|];
    forall k | 1 <= k < i + 1 ensures IsSpace(s[k]) {
      assert s[k] == s[1..][k - 1];
    }
    if i + 1 + |t| < |s| {
      assert s[i + 1 + |t|] == s[1..][i + |t|];
    }
  }

  lemma {:induction false} FirstTokenFailsOnBlank(s: string)
    ensures FirstToken(s).None? <==> forall k :: 0 <= k < |s| ==> IsSpace(s[k])
  {
    if s != [] && IsSpace(s[0]) {
      FirstTokenFailsOnBlank(s[1..]);
      assert forall k :: 1 <= k < |s| ==> s[k] == s[1..][k - 1];
    }
  }

  /** The first token is unique: any token satisfying the characterization is the one read. */
  lemma {:induction false} FirstTokenIsTheOnlyToken(s: string, t: string)
    requires IsFirstToken(s, t)
    ensures FirstToken(s) == Some(t)
  {
    var i :| 0 <= i && i + |t| <= |s| && TokenAt(s, t, i);
    if i > 0 {
      assert TokenAt(s[1..], t, i - 1) by {
        assert s[1..][i - 1 .. i - 1 + |t|] == s[i .. i + |t|];
      }
      FirstTokenIsTheOnlyToken(s[1..], t);
    } else {
      TakeWordReadsToken(s, t);
    }
  }

  lemma {:induction false} TakeWordReadsToken(s: string, t: string)
    requires |t| <= |s| && s[..|t|] == t
    requires forall k :: 0 <= k < |t| ==> !IsSpace(t[k])
    requires |t| == |s| || IsSpace(s[|t|])
    ensures TakeWord(s) == t
  {
    if t != [] {
      assert s[0] == t[0];
      assert s[1..][..|t| - 1] == t[1..];
      TakeWordReadsToken(s[1..], t[1..]);
    }
  }

  // --------------------------------------------------------- processors

  const Pkcs11Prefix: string := "pkcs11:"

  /** `process_file_uri_security_file`. */
  function ProcessFileUri(prefix: string, path: string, fs: FileSystem): (r: Option<string>)
    ensures r.Some? <==> Stat(fs, path).isRegularFile
    ensures r.Some? ==> r.value == prefix + GenericString(path)
  {
    if !Stat(fs, path).isRegularFile then None else Some(prefix + GenericString(path))
  }

  /** `process_pkcs_uri_security_file`: the prefix argument is ignored. */
  function ProcessPkcsUri(supportsPkcs11: bool, path: string, fs: FileSystem): (r: Option<string>)
    ensures r.Some? ==> supportsPkcs11 && Stat(fs, path).openable
    ensures r.Some? ==> Pkcs11Prefix <= r.value && IsFirstToken(Stat(fs, path).content, r.value)
    ensures supportsPkcs11 && Stat(fs, path).openable
            && FirstToken(Stat(fs, path).content).Some?
            && Pkcs11Prefix <= FirstToken(Stat(fs, path).content).value
            ==> r.Some?
  {
    if !supportsPkcs11 then None
    else if !Stat(fs, path).openable then None
    else
      FirstTokenFindsToken(Stat(fs, path).content);
      match FirstToken(Stat(fs, path).content)
      case None => None
      case Some(token) => if Pkcs11Prefix <= token then Some(token) else None
  }

  function Process(c: Candidate, supportsPkcs11: bool, prefix: string, root: string,
                   fs: FileSystem): Option<string>
  {
    match c.processor
    case FileUriProcessor => ProcessFileUri(prefix, Join(root, c.fileName), fs)
    case Pkcs11UriProcessor => ProcessPkcsUri(supportsPkcs11, Join(root, c.fileName), fs)
  }

  // --------------------------------------------------------- resolution

  /** The inner loop over one attribute's candidates: stop at the first success. */
  function FirstSuccess(cs: seq<Candidate>, supportsPkcs11: bool, prefix: string, root: string,
                        fs: FileSystem): Option<string>
  {
    if cs == [] then None
    else
      match Process(cs[0], supportsPkcs11, prefix, root, fs)
      case Some(v) => Some(v)
      case None => FirstSuccess(cs[1..], supportsPkcs11, prefix, root, fs)
  }

  /** Candidate `i` is the first one whose processor succeeds. */
  ghost predicate WinsAt(cs: seq<Candidate>, i: int, supportsPkcs11: bool, prefix: string,
                         root: string, fs: FileSystem)
  {
    && 0 <= i < |cs|
    && Process(cs[i], supportsPkcs11, prefix, root, fs).Some?
    && forall j :: 0 <= j < i ==> Process(cs[j], supportsPkcs11, prefix, root, fs).None?
  }

  /** The value comes from the first succeeding candidate; later candidates are not consulted. */
  lemma FirstSuccessIsFirstWinner(cs: seq<Candidate>, supportsPkcs11: bool, prefix: string,
                                  root: string, fs: FileSystem)
    ensures FirstSuccess(cs, supportsPkcs11, prefix, root, fs).None?
            <==> forall i :: 0 <= i < |cs| ==> Process(cs[i], supportsPkcs11, prefix, root, fs).None?
    ensures forall i :: WinsAt(cs, i, supportsPkcs11, prefix, root, fs) ==>
              FirstSuccess(cs, supportsPkcs11, prefix, root, fs)
              == Process(cs[i], supportsPkcs11, prefix, root, fs)
    ensures FirstSuccess(cs, supportsPkcs11, prefix, root, fs).Some? ==>
              exists i :: WinsAt(cs, i, supportsPkcs11, prefix, root, fs)
  {
    FirstSuccessFailsIffAllFail(cs, supportsPkcs11, prefix, root, fs);
    FirstSuccessHasWinner(cs, supportsPkcs11, prefix, root, fs);
    forall i | WinsAt(cs, i, supportsPkcs11, prefix, root, fs)
      ensures FirstSuccess(cs, supportsPkcs11, prefix, root, fs)
              == Process(cs[i], supportsPkcs11, prefix, root, fs)
    {
      FirstSuccessAtWinner(cs, i, supportsPkcs11, prefix, root, fs);
    }
  }

  lemma {:induction false} FirstSuccessFailsIffAllFail(cs: seq<Candidate>, supportsPkcs11: bool,
                                                       prefix: string, root: string, fs: FileSystem)
    ensures FirstSuccess(cs, supportsPkcs11, prefix, root, fs).None?
            <==> forall i :: 0 <= i < |cs| ==> Process(cs[i], supportsPkcs11, prefix, root, fs).None?
  {
    if cs != [] {
      FirstSuccessFailsIffAllFail(cs[1..], supportsPkcs11, prefix, root, fs);
      assert forall i :: 1 <= i < |cs| ==> cs[i] == cs[1..][i - 1];
    }
  }

  lemma {:induction false} FirstSuccessAtWinner(cs: seq<Candidate>, i: int, supportsPkcs11: bool,
                                                prefix: string, root: string, fs: FileSystem)
    requires WinsAt(cs, i, supportsPkcs11, prefix, root, fs)
    ensures FirstSuccess(cs, supportsPkcs11, prefix, root, fs)
            == Process(cs[i], supportsPkcs11, prefix, root, fs)
  {
    if i > 0 {
      assert Process(cs[0], supportsPkcs11, prefix, root, fs).None?;
      assert WinsAt(cs[1..], i - 1, supportsPkcs11, prefix, root, fs) by {
        forall j | 0 <= j < i - 1
          ensures Process(cs[1..][j], supportsPkcs11, prefix, root, fs).None?
        {
          assert cs[1..][j] == cs[j + 1];
        }
      }
      FirstSuccessAtWinner(cs[1..], i - 1, supportsPkcs11, prefix, root, fs);
      assert cs[1..][i - 1] == cs[i];
    }
  }

  lemma {:induction false} FirstSuccessHasWinner(cs: seq<Candidate>, supportsPkcs11: bool,
                                                 prefix: string, root: string, fs: FileSystem)
    ensures FirstSuccess(cs, supportsPkcs11, prefix, root, fs).Some? ==>
              exists i :: WinsAt(cs, i, supportsPkcs11, prefix, root, fs)
  {
    if cs != [] {
      if Process(cs[0], supportsPkcs11, prefix, root, fs).Some? {
        assert WinsAt(cs, 0, supportsPkcs11, prefix, root, fs);
      } else {
        FirstSuccessHasWinner(cs[1..], supportsPkcs11, prefix, root, fs);
        if FirstSuccess(cs[1..], supportsPkcs11, prefix, root, fs).Some? {
          var i :| WinsAt(cs[1..], i, supportsPkcs11, prefix, root, fs);
          assert WinsAt(cs, i + 1, supportsPkcs11, prefix, root, fs) by {
            forall j | 0 <= j < i + 1
              ensures Process(cs[j], supportsPkcs11, prefix, root, fs).None?
            {
              if j > 0 { assert cs[j] == cs[1..][j - 1]; }
            }
          }
        }
      }
    }
  }

  /** The value of one attribute: the first of its candidates that succeeds. */
  function ResolveAttribute(a: Attribute, supportsPkcs11: bool, prefix: string, root: string,
                            fs: FileSystem): Option<string>
  {
    FirstSuccess(Candidates(a), supportsPkcs11, prefix, root, fs)
  }

  /** How each attribute resolves under one configuration and filesystem. */
  type Resolver = Attribute -> Option<string>

  /**
   * The outer loop over required attributes, accumulating into `acc`; the
   * first attribute that does not resolve aborts with no map.
   */
  function ResolveRequired(attrs: seq<Attribute>, resolve: Resolver, acc: map<string, string>)
    : Option<map<string, string>>
  {
    if attrs == [] then Some(acc)
    else
      match resolve(attrs[0])
      case None => None
      case Some(v) => ResolveRequired(attrs[1..], resolve, acc[Name(attrs[0]) := v])
  }

  lemma NamesAreInjective()
    ensures forall a, b :: Name(a) == Name(b) ==> a == b
  {
    forall a, b | Name(a) == Name(b) ensures a == b {
      assert |Name(a)| == |Name(b)| && Name(a)[1] == Name(b)[1] && Name(a)[2] == Name(b)[2];
    }
  }

  /** Every attribute of `attrs` resolves. */
  ghost predicate AllResolve(attrs: set<Attribute>, resolve: Resolver)
  {
    forall a :: a in attrs ==> resolve(a).Some?
  }

  /** Reference definition: each attribute's value stored under its name. */
  ghost function Expected(attrs: set<Attribute>, resolve: Resolver): map<string, string>
    requires AllResolve(attrs, resolve)
  {
    NamesAreInjective();
    map a | a in attrs :: Name(a) := resolve(a).value
  }

  function Elements(attrs: seq<Attribute>): set<Attribute>
  {
    set k | 0 <= k < |attrs| :: attrs[k]
  }

  /** Adding one resolving attribute to the set adds its value under its name. */
  lemma ExpectedInsert(a: Attribute, rest: set<Attribute>, resolve: Resolver)
    requires AllResolve({a} + rest, resolve)
    ensures Expected({a} + rest, resolve) == Expected(rest, resolve)[Name(a) := resolve(a).value]
  {
    NamesAreInjective();
  }

  lemma ElementsCons(attrs: seq<Attribute>)
    requires attrs != []
    ensures Elements(attrs) == {attrs[0]} + Elements(attrs[1..])
  {
    var rest := attrs[1..];
    forall x | x in Elements(attrs) ensures x in {attrs[0]} + Elements(rest) {
      var k :| 0 <= k < |attrs| && x == attrs[k];
      if k > 0 { assert x == rest[k - 1]; }
    }
    forall x | x in Elements(rest) ensures x in Elements(attrs) {
      var k :| 0 <= k < |rest| && x == rest[k];
      assert x == attrs[k + 1];
    }
  }

  lemma AllResolveInsert(a: Attribute, rest: set<Attribute>, resolve: Resolver)
    ensures AllResolve({a} + rest, resolve) <==> resolve(a).Some? && AllResolve(rest, resolve)
  {
  }

  /** An attribute already in the set is stored with its own value. */
  lemma ExpectedAgrees(a: Attribute, rest: set<Attribute>, resolve: Resolver)
    requires AllResolve(rest, resolve) && resolve(a).Some?
    ensures Name(a) in Expected(rest, resolve) ==> Expected(rest, resolve)[Name(a)] == resolve(a).value
  {
    NamesAreInjective();
  }

  lemma UpdateThenUnion(acc: map<string, string>, e: map<string, string>, k: string, v: string)
    requires k in e ==> e[k] == v
    ensures acc[k := v] + e == acc + e[k := v]
  {
  }

  /** One step of the attribute loop. */
  lemma ResolveRequiredCons(attrs: seq<Attribute>, resolve: Resolver, acc: map<string, string>)
    requires attrs != []
    ensures resolve(attrs[0]).None? ==> ResolveRequired(attrs, resolve, acc).None?
    ensures resolve(attrs[0]).Some? ==>
              ResolveRequired(attrs, resolve, acc)
              == ResolveRequired(attrs[1..], resolve, acc[Name(attrs[0]) := resolve(attrs[0]).value])
  {
  }

  /**
   * The attribute loop succeeds exactly when every attribute resolves, and
   * then its result is the accumulated map extended by the reference
   * definition, which depends only on the SET of attributes.
   */
  lemma {:induction false} ResolveRequiredSpec(attrs: seq<Attribute>, resolve: Resolver,
                                               acc: map<string, string>)
    ensures
      ResolveRequired(attrs, resolve, acc)
      == if AllResolve(Elements(attrs), resolve)
         then Some(acc + Expected(Elements(attrs), resolve))
         else None
  {
    if attrs == [] {
      assert Elements(attrs) == {};
      assert acc + Expected({}, resolve) == acc;
    } else {
      var a, rest := attrs[0], attrs[1..];
      ElementsCons(attrs);
      AllResolveInsert(a, Elements(rest), resolve);
      ResolveRequiredCons(attrs, resolve, acc);
      if resolve(a).Some? {
        var v := resolve(a).value;
        ResolveRequiredSpec(rest, resolve, acc[Name(a) := v]);
        if AllResolve(Elements(rest), resolve) {
          ExpectedInsert(a, Elements(rest), resolve);
          ExpectedAgrees(a, Elements(rest), resolve);
          UpdateThenUnion(acc, Expected(Elements(rest), resolve), Name(a), v);
        }
      }
    }
  }

  /**
   * The order in which the required attributes are visited does not matter:
   * the C++ code iterates an `unordered_map`, whose order is unspecified.
   */
  lemma ResolutionIgnoresOrder(attrs1: seq<Attribute>, attrs2: seq<Attribute>, resolve: Resolver,
                               acc: map<string, string>)
    requires forall a :: a in attrs1 <==> a in attrs2
    ensures ResolveRequired(attrs1, resolve, acc) == ResolveRequired(attrs2, resolve, acc)
  {
    ResolveRequiredSpec(attrs1, resolve, acc);
    ResolveRequiredSpec(attrs2, resolve, acc);
    assert Elements(attrs1) == Elements(attrs2) by {
      forall x | x in Elements(attrs1) ensures x in Elements(attrs2) {
        var k :| 0 <= k < |attrs1| && x == attrs1[k];
        assert attrs1[k] in attrs2;
      }
      forall x | x in Elements(attrs2) ensures x in Elements(attrs1) {
        var k :| 0 <= k < |attrs2| && x == attrs2[k];
        assert attrs2[k] in attrs1;
      }
    }
  }

  /** The keys of the six required attributes. */
  ghost function RequiredNames(): set<string>
  {
    set a | a in RequiredAttributes :: Name(a)
  }

  /** The required loop over the fixed table, for any resolver. */
  lemma RequiredLoopSpec(resolve: Resolver)
    ensures
      var r := ResolveRequired(RequiredAttributes, resolve, map[]);
      && (r.None? <==> exists a :: a in RequiredAttributes && resolve(a).None?)
      && (r.Some? ==> r.value.Keys == RequiredNames())
      && (r.Some? ==> forall a :: a in RequiredAttributes ==> r.value[Name(a)] == resolve(a).value)
  {
    ResolveRequiredSpec(RequiredAttributes, resolve, map[]);
    NamesAreInjective();
    assert Elements(RequiredAttributes) == set a | a in RequiredAttributes;
  }

  /** The optional-file loop: `CRL` is added only when its file resolves. */
  function ResolveOptional(resolve: Resolver): map<string, string>
  {
    match resolve(Crl)
    case None => map[]
    case Some(v) => map[Name(Crl) := v]
  }

  /** The resolver of one configuration and filesystem. */
  function ResolverOf(supportsPkcs11: bool, prefix: string, root: string, fs: FileSystem): Resolver
  {
    a => ResolveAttribute(a, supportsPkcs11, prefix, root, fs)
  }

  /** Both loops, for any resolver. */
  function ResolveWith(resolve: Resolver): (r: Option<map<string, string>>)
    ensures r.None? <==> exists a :: a in RequiredAttributes && resolve(a).None?
    ensures r.Some? ==>
              r.value.Keys == RequiredNames() + (if resolve(Crl).Some? then {Name(Crl)} else {})
    ensures r.Some? ==> forall a :: a in RequiredAttributes ==> r.value[Name(a)] == resolve(a).value
    ensures r.Some? && Name(Crl) in r.value ==>
              resolve(Crl).Some? && r.value[Name(Crl)] == resolve(Crl).value
  {
    RequiredLoopSpec(resolve);
    CrlIsOptional();
    match ResolveRequired(RequiredAttributes, resolve, map[])
    case None => None
    case Some(m) => Some(m + ResolveOptional(resolve))
  }

  /**
   * The map the resolver builds before copying it into the caller's string
   * map: nothing unless every required attribute resolves, and then exactly
   * the six required keys plus `CRL` when `crl.pem` is a regular file.
   */
  function Resolve(supportsPkcs11: bool, prefix: string, root: string, fs: FileSystem)
    : (r: Option<map<string, string>>)
    ensures r.None? <==> exists a :: a in RequiredAttributes
                          && ResolveAttribute(a, supportsPkcs11, prefix, root, fs).None?
    ensures r.Some? ==>
              r.value.Keys == RequiredNames()
                              + (if Stat(fs, Join(root, CrlFileName)).isRegularFile
                                 then {Name(Crl)} else {})
    ensures r.Some? ==> forall a :: a in RequiredAttributes ==>
              r.value[Name(a)] == ResolveAttribute(a, supportsPkcs11, prefix, root, fs).value
    ensures r.Some? && Name(Crl) in r.value ==>
              r.value[Name(Crl)] == prefix + GenericString(Join(root, CrlFileName))
  {
    CrlIsAFileUri(supportsPkcs11, prefix, root, fs);
    ResolveWith(ResolverOf(supportsPkcs11, prefix, root, fs))
  }

  /** The `CRL` key is none of the required keys. */
  lemma CrlIsOptional()
    ensures Name(Crl) !in RequiredNames()
  {
    NamesAreInjective();
  }

  /** `CRL` resolves exactly when `crl.pem` is a regular file. */
  lemma CrlIsAFileUri(supportsPkcs11: bool, prefix: string, root: string, fs: FileSystem)
    ensures ResolveAttribute(Crl, supportsPkcs11, prefix, root, fs)
            == ProcessFileUri(prefix, Join(root, CrlFileName), fs)
  {
    var cs := Candidates(Crl);
    assert cs[1..] == [];
    assert FirstSuccess(cs[1..], supportsPkcs11, prefix, root, fs).None?;
  }

  // --------------------------------------------------------- precedence

  /**
   * For the four certificate and key attributes a usable PKCS#11 reference
   * file wins over the PEM file; otherwise the PEM file decides.
   */
  lemma Pkcs11ReferencePreferred(a: Attribute, supportsPkcs11: bool, prefix: string,
                                 root: string, fs: FileSystem)
    requires a in {IdentityCa, Certificate, PrivateKey, PermissionsCa}
    ensures
      var p11 := Join(root, Candidates(a)[0].fileName);
      var pem := Join(root, Candidates(a)[1].fileName);
      && Candidates(a)[0].fileName[|Candidates(a)[0].fileName| - 4..] == ".p11"
      && Candidates(a)[1].fileName[|Candidates(a)[1].fileName| - 4..] == ".pem"
      && ResolveAttribute(a, supportsPkcs11, prefix, root, fs)
         == if ProcessPkcsUri(supportsPkcs11, p11, fs).Some?
            then ProcessPkcsUri(supportsPkcs11, p11, fs)
            else ProcessFileUri(prefix, pem, fs)
  {
    var cs := Candidates(a);
    assert cs[1..][1..] == [];
    FirstSuccessIsFirstWinner(cs, supportsPkcs11, prefix, root, fs);
  }

  /** Governance and permissions documents come from a single `.p7s` file each. */
  lemma SignedDocumentsComeFromP7s(a: Attribute, supportsPkcs11: bool, prefix: string,
                                   root: string, fs: FileSystem)
    requires a in {Governance, Permissions}
    ensures
      var file := if a == Governance then "governance.p7s" else "permissions.p7s";
      ResolveAttribute(a, supportsPkcs11, prefix, root, fs)
      == ProcessFileUri(prefix, Join(root, file), fs)
  {
    var cs := Candidates(a);
    assert cs[1..] == [];
    assert FirstSuccess(cs[1..], supportsPkcs11, prefix, root, fs).None?;
  }

  /** Without PKCS#11 support a candidate list yields only FILE URI values. */
  lemma {:induction false} FirstSuccessWithoutPkcs11(cs: seq<Candidate>, prefix: string,
                                                     root: string, fs: FileSystem)
    ensures var r := FirstSuccess(cs, false, prefix, root, fs);
            r.Some? ==> prefix <= r.value
  {
    if cs != [] {
      FirstSuccessWithoutPkcs11(cs[1..], prefix, root, fs);
    }
  }

  // ------------------------------------------------------- entry points

  datatype SecurityResult = SecurityResult(ret: RetCode, result: Option<map<string, string>>)

  /**
   * `get_security_files_support_pkcs`.  `result` is the caller's string map
   * (None for NULL); it is written only after every required attribute has
   * resolved, and each resolved key then overrides an existing entry.
   */
  function GetSecurityFilesSupportPkcs(supportsPkcs11: bool, prefix: Option<string>,
                                       secureRoot: Option<string>,
                                       result: Option<map<string, string>>,
                                       fs: FileSystem): (r: SecurityResult)
    ensures r.ret in {Ok, Error, InvalidArgument}
    ensures r.ret == InvalidArgument <==> prefix.None? || secureRoot.None? || result.None?
    ensures r.ret != Ok ==> r.result == result
    ensures r.ret == Error <==>
              && r.ret != InvalidArgument
              && exists a :: a in RequiredAttributes
                   && ResolveAttribute(a, supportsPkcs11, prefix.value, secureRoot.value, fs).None?
    ensures r.ret == Ok ==>
              var resolved := Resolve(supportsPkcs11, prefix.value, secureRoot.value, fs);
              resolved.Some? && r.result == Some(result.value + resolved.value)
  {
    if prefix.None? || secureRoot.None? || result.None? then SecurityResult(InvalidArgument, result)
    else
      match Resolve(supportsPkcs11, prefix.value, secureRoot.value, fs)
      case None => SecurityResult(Error, result)
      case Some(resolved) => SecurityResult(Ok, Some(result.value + resolved))
  }

  /** `get_security_files`: the resolver with PKCS#11 support disabled. */
  function GetSecurityFiles(prefix: Option<string>, secureRoot: Option<string>,
                            result: Option<map<string, string>>, fs: FileSystem): (r: SecurityResult)
    ensures r == GetSecurityFilesSupportPkcs(false, prefix, secureRoot, result, fs)
    ensures r.ret == Ok ==>
              forall key :: key in Resolve(false, prefix.value, secureRoot.value, fs).value ==>
                key in r.result.value && prefix.value <= r.result.value[key]
  {
    var r := GetSecurityFilesSupportPkcs(false, prefix, secureRoot, result, fs);
    if r.ret == Ok then
      WithoutPkcs11EveryValueIsPrefixed(prefix.value, secureRoot.value, fs);
      r
    else r
  }

  /** Without PKCS#11 support every resolved value is the prefix followed by a path. */
  lemma WithoutPkcs11EveryValueIsPrefixed(prefix: string, root: string, fs: FileSystem)
    ensures
      var r := Resolve(false, prefix, root, fs);
      r.Some? ==> forall key :: key in r.value ==> prefix <= r.value[key]
  {
    var resolve := ResolverOf(false, prefix, root, fs);
    forall a ensures resolve(a).Some? ==> prefix <= resolve(a).value {
      FirstSuccessWithoutPkcs11(Candidates(a), prefix, root, fs);
    }
    ResolvedValuesComeFromResolver(resolve, v => prefix <= v);
  }

  /**
   * Every value of a resolution is the value of some attribute, so any
   * property every attribute's value has holds of every entry of the map.
   */
  lemma ResolvedValuesComeFromResolver(resolve: Resolver, P: string -> bool)
    requires forall a :: resolve(a).Some? ==> P(resolve(a).value)
    ensures var r := ResolveWith(resolve);
            r.Some? ==> forall key :: key in r.value ==> P(r.value[key])
  {
    var r := ResolveWith(resolve);
    if r.Some? {
      forall key | key in r.value ensures P(r.value[key]) {
        if key != Name(Crl) {
          var a :| a in RequiredAttributes && key == Name(a);
        }
      }
    }
  }

  /** A NULL argument is rejected before the filesystem is consulted. */
  lemma NullArgumentIgnoresFileSystem(supportsPkcs11: bool, prefix: Option<string>,
                                      secureRoot: Option<string>,
                                      result: Option<map<string, string>>,
                                      fs1: FileSystem, fs2: FileSystem)
    requires prefix.None? || secureRoot.None? || result.None?
    ensures GetSecurityFilesSupportPkcs(supportsPkcs11, prefix, secureRoot, result, fs1)
            == GetSecurityFilesSupportPkcs(supportsPkcs11, prefix, secureRoot, result, fs2)
  {
  }
}

=== FILE: service_endpoint_info.dfy ===
/**
 * `rmw_service_endpoint_info_t`: the description of one client or server of a
 * service, with three owned strings, a type hash, an endpoint type, an
 * endpoint count and two owned arrays of `endpoint_count` entries.
 *
 * Every C function taking `rmw_service_endpoint_info_t *` becomes a function
 * taking `Option<EndpointInfo>` (None is the NULL pointer) and returning the
 * return code together with the record as the caller sees it afterwards.
 */
module ServiceEndpointInfo {
  import opened Wrappers
  import opened Allocator

  /** `RMW_GID_STORAGE_SIZE`: bytes in one GID slot. */
  const GidStorageSize: nat := 16
  /** `ROSIDL_TYPE_HASH_SIZE`: bytes in a type hash value. */
  const TypeHashSize: nat := 32

  newtype uint8 = x: int | 0 <= x < 256

  /** `rmw_endpoint_type_t`. */
  datatype EndpointType =
    | EndpointInvalid
    | EndpointPublisher
    | EndpointSubscription
    | EndpointClient
    | EndpointServer

  /** `rosidl_type_hash_t`, copied by value. */
  datatype TypeHash = TypeHash(version: uint8, value: seq<uint8>)

  datatype Duration = Duration(sec: nat, nsec: nat)

  /** `rmw_qos_profile_t`, copied by value and never inspected here. */
  datatype QosProfile = QosProfile(
    history: nat,
    depth: nat,
    reliability: nat,
    durability: nat,
    deadline: Duration,
    lifespan: Duration,
    liveliness: nat,
    livelinessLeaseDuration: Duration,
    avoidRosNamespaceConventions: bool)

  /** One `uint8_t[RMW_GID_STORAGE_SIZE]` slot. */
  type Gid = seq<uint8>

  datatype EndpointInfo = EndpointInfo(
    nodeName: Option<Owned<string>>,
    nodeNamespace: Option<Owned<string>>,
    serviceType: Option<Owned<string>>,
    serviceTypeHash: TypeHash,
    endpointType: EndpointType,
    endpointCount: nat,
    endpointGids: Option<Owned<seq<Gid>>>,
    qosProfiles: Option<Owned<seq<QosProfile>>>)

  /** Outcome of an operation that may allocate or free. */
  datatype InfoStep = InfoStep(ret: RetCode, info: Option<EndpointInfo>, heap: Heap)

  /** Outcome of an operation that never touches the allocator. */
  datatype InfoUpdate = InfoUpdate(ret: RetCode, info: Option<EndpointInfo>)

  function ZeroTypeHash(): TypeHash
  {
    TypeHash(0, seq(TypeHashSize, _ => 0))
  }

  /** The heap buffers a record owns. */
  function OwnedPtrs(e: EndpointInfo): set<Ptr>
  {
    PtrOf(e.nodeName) + PtrOf(e.nodeNamespace) + PtrOf(e.serviceType)
    + PtrOf(e.endpointGids) + PtrOf(e.qosProfiles)
  }

  /** `rmw_get_zero_initialized_service_endpoint_info`. */
  function ZeroInitialized(): (z: EndpointInfo)
    ensures z.nodeName.None? && z.nodeNamespace.None? && z.serviceType.None?
    ensures z.endpointGids.None? && z.qosProfiles.None?
    ensures z.endpointType == EndpointInvalid && z.endpointCount == 0
    ensures OwnedPtrs(z) == {}
  {
    EndpointInfo(None, None, None, ZeroTypeHash(), EndpointInvalid, 0, None, None)
  }

  /**
   * The layout the header documents: both arrays hold `endpoint_count`
   * entries and the count is 1 or 2.  No setter enforces it.
   */
  ghost predicate WellFormed(e: EndpointInfo)
  {
    && (e.endpointCount == 1 || e.endpointCount == 2)
    && e.endpointGids.Some? && |e.endpointGids.value.contents| == e.endpointCount
    && e.qosProfiles.Some? && |e.qosProfiles.value.contents| == e.endpointCount
  }

  // ---------------------------------------------------------------- fini

  /**
   * `rmw_service_endpoint_info_fini`.  The five `_fini_*` helpers each
   * deallocate one buffer and return OK unconditionally, so once both
   * arguments are non-NULL the function always reaches the final zeroing.
   */
  function Fini(info: Option<EndpointInfo>, allocator: AllocatorRef, h: Heap): (r: InfoStep)
    requires info.Some? && !allocator.NullAllocator? ==> allocator.ValidAllocator?
    ensures r.ret == InvalidArgument <==> info.None? || allocator.NullAllocator?
    ensures r.ret == InvalidArgument ==> r.info == info && r.heap == h
    ensures r.ret != InvalidArgument ==> r.ret == Ok
    ensures r.ret == Ok ==> r.info == Some(ZeroInitialized())
    ensures r.ret == Ok ==> r.heap.live == h.live - OwnedPtrs(info.value)
    ensures r.heap.next == h.next
  {
    if info.None? then InfoStep(InvalidArgument, info, h)
    else if allocator.NullAllocator? then InfoStep(InvalidArgument, info, h)
    else
      var e := info.value;
      var h1 := Deallocate(h, e.nodeName);
      var h2 := Deallocate(h1, e.nodeNamespace);
      var h3 := Deallocate(h2, e.serviceType);
      var h4 := Deallocate(h3, e.endpointGids);
      var h5 := Deallocate(h4, e.qosProfiles);
      InfoStep(Ok, Some(ZeroInitialized()), h5)
  }

  /** Finalizing an already zero record succeeds and changes nothing. */
  lemma FiniOfZeroIsNoOp(h: Heap)
    ensures Fini(Some(ZeroInitialized()), ValidAllocator, h)
            == InfoStep(Ok, Some(ZeroInitialized()), h)
  {
    var r := Fini(Some(ZeroInitialized()), ValidAllocator, h);
    assert r.heap.live == h.live;
  }

  // ------------------------------------------------------------- strings

  datatype StrCopy = StrCopy(ret: RetCode, slot: Option<Owned<string>>, heap: Heap)

  /**
   * `_rmw_service_endpoint_info_copy_str`, given the current value of the
   * field it writes.  The field address itself is never NULL here because
   * every caller passes the address of a member of a non-NULL record.
   * On duplication failure the field is overwritten with NULL.
   */
  function CopyStr(slot: Option<Owned<string>>, str: Option<string>, allocator: AllocatorRef,
                   h: Heap, allocOk: bool): (r: StrCopy)
    requires str.Some? && !allocator.NullAllocator? ==> allocator.ValidAllocator?
    ensures r.ret == InvalidArgument <==> str.None? || allocator.NullAllocator?
    ensures r.ret == Ok <==> str.Some? && !allocator.NullAllocator? && allocOk
    ensures r.ret == BadAlloc <==> str.Some? && !allocator.NullAllocator? && !allocOk
    ensures r.ret == InvalidArgument ==> r.slot == slot && r.heap == h
    ensures r.ret == BadAlloc ==> r.slot.None? && r.heap == h
    ensures r.ret == Ok ==> FreshCopy(h, r.heap, r.slot, str.value)
  {
    if str.None? then StrCopy(InvalidArgument, slot, h)
    else if allocator.NullAllocator? then StrCopy(InvalidArgument, slot, h)
    else
      var a := Allocate(h, allocOk);
      match a.ptr
      case None => StrCopy(BadAlloc, None, a.heap)
      case Some(p) => StrCopy(Ok, Some(Owned(p, str.value)), a.heap)
  }

  /** `rmw_service_endpoint_info_set_node_name`. */
  function SetNodeName(info: Option<EndpointInfo>, nodeName: Option<string>,
                       allocator: AllocatorRef, h: Heap, allocOk: bool): (r: InfoStep)
    requires info.Some? && nodeName.Some? && !allocator.NullAllocator? ==> allocator.ValidAllocator?
    ensures r.ret == InvalidArgument <==> info.None? || nodeName.None? || allocator.NullAllocator?
    ensures r.ret == Ok <==> info.Some? && nodeName.Some? && !allocator.NullAllocator? && allocOk
    ensures r.ret == BadAlloc <==> info.Some? && nodeName.Some? && !allocator.NullAllocator? && !allocOk
    ensures r.ret == InvalidArgument ==> r.info == info && r.heap == h
    ensures info.Some? <==> r.info.Some?
    ensures info.Some? ==> r.info.value == info.value.(nodeName := r.info.value.nodeName)
    ensures r.ret == BadAlloc ==> r.info.value.nodeName.None? && r.heap == h
    ensures r.ret == Ok ==> FreshCopy(h, r.heap, r.info.value.nodeName, nodeName.value)
  {
    if info.None? then InfoStep(InvalidArgument, info, h)
    else
      var c := CopyStr(info.value.nodeName, nodeName, allocator, h, allocOk);
      InfoStep(c.ret, Some(info.value.(nodeName := c.slot)), c.heap)
  }

  /** `rmw_service_endpoint_info_set_node_namespace`. */
  function SetNodeNamespace(info: Option<EndpointInfo>, nodeNamespace: Option<string>,
                            allocator: AllocatorRef, h: Heap, allocOk: bool): (r: InfoStep)
    requires info.Some? && nodeNamespace.Some? && !allocator.NullAllocator? ==> allocator.ValidAllocator?
    ensures r.ret == InvalidArgument <==> info.None? || nodeNamespace.None? || allocator.NullAllocator?
    ensures r.ret == Ok <==> info.Some? && nodeNamespace.Some? && !allocator.NullAllocator? && allocOk
    ensures r.ret == BadAlloc <==> info.Some? && nodeNamespace.Some? && !allocator.NullAllocator? && !allocOk
    ensures r.ret == InvalidArgument ==> r.info == info && r.heap == h
    ensures info.Some? <==> r.info.Some?
    ensures info.Some? ==> r.info.value == info.value.(nodeNamespace := r.info.value.nodeNamespace)
    ensures r.ret == BadAlloc ==> r.info.value.nodeNamespace.None? && r.heap == h
    ensures r.ret == Ok ==> FreshCopy(h, r.heap, r.info.value.nodeNamespace, nodeNamespace.value)
  {
    if info.None? then InfoStep(InvalidArgument, info, h)
    else
      var c := CopyStr(info.value.nodeNamespace, nodeNamespace, allocator, h, allocOk);
      InfoStep(c.ret, Some(info.value.(nodeNamespace := c.slot)), c.heap)
  }

  /** `rmw_service_endpoint_info_set_service_type`. */
  function SetServiceType(info: Option<EndpointInfo>, serviceType: Option<string>,
                          allocator: AllocatorRef, h: Heap, allocOk: bool): (r: InfoStep)
    requires info.Some? && serviceType.Some? && !allocator.NullAllocator? ==> allocator.ValidAllocator?
    ensures r.ret == InvalidArgument <==> info.None? || serviceType.None? || allocator.NullAllocator?
    ensures r.ret == Ok <==> info.Some? && serviceType.Some? && !allocator.NullAllocator? && allocOk
    ensures r.ret == BadAlloc <==> info.Some? && serviceType.Some? && !allocator.NullAllocator? && !allocOk
    ensures r.ret == InvalidArgument ==> r.info == info && r.heap == h
    ensures info.Some? <==> r.info.Some?
    ensures info.Some? ==> r.info.value == info.value.(serviceType := r.info.value.serviceType)
    ensures r.ret == BadAlloc ==> r.info.value.serviceType.None? && r.heap == h
    ensures r.ret == Ok ==> FreshCopy(h, r.heap, r.info.value.serviceType, serviceType.value)
  {
    if info.None? then InfoStep(InvalidArgument, info, h)
    else
      var c := CopyStr(info.value.serviceType, serviceType, allocator, h, allocOk);
      InfoStep(c.ret, Some(info.value.(serviceType := c.slot)), c.heap)
  }

  // ------------------------------------------------------- value fields

  /** `rmw_service_endpoint_info_set_service_type_hash`: a value copy, no allocator involved. */
  function SetServiceTypeHash(info: Option<EndpointInfo>, typeHash: Option<TypeHash>): (r: InfoUpdate)
    ensures r.ret == InvalidArgument <==> info.None? || typeHash.None?
    ensures r.ret != InvalidArgument ==> r.ret == Ok
    ensures r.ret == InvalidArgument ==> r.info == info
    ensures r.ret == Ok ==> r.info == Some(info.value.(serviceTypeHash := typeHash.value))
  {
    if info.None? || typeHash.None? then InfoUpdate(InvalidArgument, info)
    else InfoUpdate(Ok, Some(info.value.(serviceTypeHash := typeHash.value)))
  }

  /** `rmw_service_endpoint_info_set_endpoint_type`: any type is accepted. */
  function SetEndpointType(info: Option<EndpointInfo>, endpointType: EndpointType): (r: InfoUpdate)
    ensures r.ret == InvalidArgument <==> info.None?
    ensures r.ret != InvalidArgument ==> r.ret == Ok
    ensures r.ret == InvalidArgument ==> r.info == info
    ensures r.ret == Ok ==> r.info == Some(info.value.(endpointType := endpointType))
  {
    if info.None? then InfoUpdate(InvalidArgument, info)
    else InfoUpdate(Ok, Some(info.value.(endpointType := endpointType)))
  }

  /** `rmw_service_endpoint_info_set_endpoint_count`: only 1 and 2 are accepted. */
  function SetEndpointCount(info: Option<EndpointInfo>, endpointCount: nat): (r: InfoUpdate)
    ensures r.ret == InvalidArgument <==> info.None? || endpointCount !in {1, 2}
    ensures r.ret != InvalidArgument ==> r.ret == Ok
    ensures r.ret == InvalidArgument ==> r.info == info
    ensures r.ret == Ok ==> r.info == Some(info.value.(endpointCount := endpointCount))
  {
    if info.None? then InfoUpdate(InvalidArgument, info)
    else if !(endpointCount == 1 || endpointCount == 2) then InfoUpdate(InvalidArgument, info)
    else InfoUpdate(Ok, Some(info.value.(endpointCount := endpointCount)))
  }

  // --------------------------------------------------------------- gids

  /** Cuts a flat byte buffer into `count` consecutive GID slots. */
  function Slots(bytes: seq<uint8>, count: nat): (s: seq<Gid>)
    requires count * GidStorageSize <= |bytes|
    ensures |s| == count
    ensures forall i :: 0 <= i < count ==> |s[i]| == GidStorageSize
  {
    seq(count, i requires 0 <= i < count =>
      bytes[i * GidStorageSize .. (i + 1) * GidStorageSize])
  }

  /** The bytes of consecutive slots, in order. */
  function Flatten(s: seq<Gid>): seq<uint8>
  {
    if s == [] then [] else s[0] + Flatten(s[1..])
  }

  /** The GID slots hold exactly the first `count` slot-sized runs of the input, in order. */
  lemma {:induction false} SlotsFlattenRoundTrip(bytes: seq<uint8>, count: nat)
    requires count * GidStorageSize <= |bytes|
    ensures Flatten(Slots(bytes, count)) == bytes[..count * GidStorageSize]
    decreases count
  {
    if count > 0 {
      var rest := bytes[GidStorageSize..];
      SlotsFlattenRoundTrip(rest, count - 1);
      var s := Slots(bytes, count);
      assert s[1..] == Slots(rest, count - 1) by {
        forall i | 0 <= i < count - 1
          ensures s[1..][i] == Slots(rest, count - 1)[i]
        {
          assert s[1..][i] == bytes[(i + 1) * GidStorageSize .. (i + 2) * GidStorageSize];
        }
      }
      assert bytes[..count * GidStorageSize]
          == bytes[..GidStorageSize] + rest[..(count - 1) * GidStorageSize];
    }
  }

  /**
   * `rmw_service_endpoint_info_set_gids`.  `size` is only validated: the copy
   * always reads whole slots.  The input buffer is not checked for NULL, so a
   * caller that passes all checks must supply `count` whole slots.
   */
  function SetGids(info: Option<EndpointInfo>, gids: Option<seq<uint8>>, endpointCount: nat,
                   size: nat, allocator: AllocatorRef, h: Heap, allocOk: bool): (r: InfoStep)
    requires info.Some? && size <= GidStorageSize && endpointCount in {1, 2}
             && !allocator.NullAllocator?
             ==> allocator.ValidAllocator?
    requires info.Some? && size <= GidStorageSize && endpointCount in {1, 2}
             && !allocator.NullAllocator? && allocOk
             ==> gids.Some? && endpointCount * GidStorageSize <= |gids.value|
    ensures r.ret == InvalidArgument
            <==> info.None? || size > GidStorageSize || endpointCount !in {1, 2}
                 || allocator.NullAllocator?
    ensures r.ret == Ok <==> r.ret != InvalidArgument && allocOk
    ensures r.ret == BadAlloc <==> r.ret != InvalidArgument && !allocOk
    ensures r.ret == InvalidArgument ==> r.info == info && r.heap == h
    ensures info.Some? <==> r.info.Some?
    ensures info.Some? ==> r.info.value == info.value.(endpointGids := r.info.value.endpointGids)
    ensures r.ret == BadAlloc ==> r.info.value.endpointGids.None? && r.heap == h
    ensures r.ret == Ok ==> FreshCopy(h, r.heap, r.info.value.endpointGids,
                                      Slots(gids.value, endpointCount))
    ensures r.ret == Ok ==>
              var slots := r.info.value.endpointGids.value.contents;
              && |slots| == endpointCount
              && forall i :: 0 <= i < endpointCount ==>
                   slots[i] == gids.value[i * GidStorageSize .. (i + 1) * GidStorageSize]
  {
    if info.None? then InfoStep(InvalidArgument, info, h)
    else if size > GidStorageSize then InfoStep(InvalidArgument, info, h)
    else if !(endpointCount == 1 || endpointCount == 2) then InfoStep(InvalidArgument, info, h)
    else if allocator.NullAllocator? then InfoStep(InvalidArgument, info, h)
    else
      var a := Allocate(h, allocOk);
      match a.ptr
      case None => InfoStep(BadAlloc, Some(info.value.(endpointGids := None)), a.heap)
      case Some(p) =>
        var slots := Slots(gids.value, endpointCount);
        InfoStep(Ok, Some(info.value.(endpointGids := Some(Owned(p, slots)))), a.heap)
  }

  // ---------------------------------------------------------------- qos

  /**
   * `rmw_service_endpoint_info_set_qos_profiles`.  The allocator is never
   * checked, so a caller that passes the checks must supply a usable one.
   */
  function SetQosProfiles(info: Option<EndpointInfo>, qosProfiles: Option<seq<QosProfile>>,
                          endpointCount: nat, allocator: AllocatorRef, h: Heap,
                          allocOk: bool): (r: InfoStep)
    requires info.Some? && qosProfiles.Some? && endpointCount in {1, 2}
             ==> allocator.ValidAllocator? && endpointCount <= |qosProfiles.value|
    ensures r.ret == InvalidArgument
            <==> info.None? || qosProfiles.None? || endpointCount !in {1, 2}
    ensures r.ret == Ok <==> r.ret != InvalidArgument && allocOk
    ensures r.ret == BadAlloc <==> r.ret != InvalidArgument && !allocOk
    ensures r.ret == InvalidArgument ==> r.info == info && r.heap == h
    ensures info.Some? <==> r.info.Some?
    ensures info.Some? ==> r.info.value == info.value.(qosProfiles := r.info.value.qosProfiles)
    ensures r.ret == BadAlloc ==> r.info.value.qosProfiles.None? && r.heap == h
    ensures r.ret == Ok ==> FreshCopy(h, r.heap, r.info.value.qosProfiles,
                                      qosProfiles.value[..endpointCount])
  {
    if info.None? then InfoStep(InvalidArgument, info, h)
    else if qosProfiles.None? then InfoStep(InvalidArgument, info, h)
    else if !(endpointCount == 1 || endpointCount == 2) then InfoStep(InvalidArgument, info, h)
    else
      var a := Allocate(h, allocOk);
      match a.ptr
      case None => InfoStep(BadAlloc, Some(info.value.(qosProfiles := None)), a.heap)
      case Some(p) =>
        InfoStep(Ok, Some(info.value.(qosProfiles := Some(Owned(p, qosProfiles.value[..endpointCount])))),
                 a.heap)
  }

  // ----------------------------------------------------------- lifecycle

  /**
   * Populating every field of a zero record through the setters yields a
   * record of the documented layout, and finalizing it releases every buffer
   * the setters allocated: the allocator ends with the live set it started with.
   */
  lemma PopulateThenFiniReleasesEverything(
    h: Heap, name: string, namespace: string, serviceType: string, typeHash: TypeHash,
    endpointType: EndpointType, count: nat, gids: seq<uint8>, qos: seq<QosProfile>)
    requires count in {1, 2} && count * GidStorageSize <= |gids| && count <= |qos|
    ensures
      var s1 := SetNodeName(Some(ZeroInitialized()), Some(name), ValidAllocator, h, true);
      var s2 := SetNodeNamespace(s1.info, Some(namespace), ValidAllocator, s1.heap, true);
      var s3 := SetServiceType(s2.info, Some(serviceType), ValidAllocator, s2.heap, true);
      var u4 := SetServiceTypeHash(s3.info, Some(typeHash));
      var u5 := SetEndpointType(u4.info, endpointType);
      var u6 := SetEndpointCount(u5.info, count);
      var s7 := SetGids(u6.info, Some(gids), count, GidStorageSize, ValidAllocator, s3.heap, true);
      var s8 := SetQosProfiles(s7.info, Some(qos), count, ValidAllocator, s7.heap, true);
      var f := Fini(s8.info, ValidAllocator, s8.heap);
      && s8.ret == Ok && WellFormed(s8.info.value)
      && f.ret == Ok && f.info == Some(ZeroInitialized()) && f.heap.live == h.live
  {
    var s3 := StringSettersKeepOwnership(h, name, namespace, serviceType);
    var u4 := SetServiceTypeHash(s3.info, Some(typeHash));
    var u5 := SetEndpointType(u4.info, endpointType);
    var u6 := SetEndpointCount(u5.info, count);
    assert OwnedPtrs(u6.info.value) == OwnedPtrs(s3.info.value);
    ArraySettersKeepOwnership(u6.info.value, count, gids, qos, s3.heap, h.live);
  }

  /**
   * The three string setters on a zero record: the live set grows by exactly
   * the buffers the record now owns.
   */
  lemma StringSettersKeepOwnership(h: Heap, name: string, namespace: string, serviceType: string)
    returns (s3: InfoStep)
    ensures
      var s1 := SetNodeName(Some(ZeroInitialized()), Some(name), ValidAllocator, h, true);
      var s2 := SetNodeNamespace(s1.info, Some(namespace), ValidAllocator, s1.heap, true);
      s3 == SetServiceType(s2.info, Some(serviceType), ValidAllocator, s2.heap, true)
    ensures s3.ret == Ok && s3.info.Some?
    ensures s3.info.value.endpointGids.None? && s3.info.value.qosProfiles.None?
    ensures s3.heap.live == h.live + OwnedPtrs(s3.info.value)
    ensures s3.heap.live - OwnedPtrs(s3.info.value) == h.live
  {
    var s1 := SetNodeName(Some(ZeroInitialized()), Some(name), ValidAllocator, h, true);
    var e1 := s1.info.value;
    assert OwnedPtrs(e1) == {e1.nodeName.value.ptr};
    var s2 := SetNodeNamespace(s1.info, Some(namespace), ValidAllocator, s1.heap, true);
    var e2 := s2.info.value;
    assert OwnedPtrs(e2) == OwnedPtrs(e1) + {e2.nodeNamespace.value.ptr};
    s3 := SetServiceType(s2.info, Some(serviceType), ValidAllocator, s2.heap, true);
    var e3 := s3.info.value;
    assert OwnedPtrs(e3) == OwnedPtrs(e2) + {e3.serviceType.value.ptr};
  }

  /**
   * The two array setters on a record that owns no arrays yet: both arrays
   * then hold `count` entries, and the live set grows by exactly the two new
   * buffers.
   */
  lemma ArraySettersKeepOwnership(e: EndpointInfo, count: nat, gids: seq<uint8>,
                                  qos: seq<QosProfile>, h: Heap, base: set<Ptr>)
    requires count in {1, 2} && count * GidStorageSize <= |gids| && count <= |qos|
    requires e.endpointGids.None? && e.qosProfiles.None?
    requires h.live - OwnedPtrs(e) == base
    ensures
      var s7 := SetGids(Some(e), Some(gids), count, GidStorageSize, ValidAllocator, h, true);
      var s8 := SetQosProfiles(s7.info, Some(qos), count, ValidAllocator, s7.heap, true);
      && s7.ret == Ok && s8.ret == Ok
      && |s8.info.value.endpointGids.value.contents| == count
      && |s8.info.value.qosProfiles.value.contents| == count
      && s8.info.value.(endpointGids := None, qosProfiles := None) == e
      && s8.heap.live - OwnedPtrs(s8.info.value) == base
      && var g := s8.info.value.endpointGids.value.ptr;
         var q := s8.info.value.qosProfiles.value.ptr;
         g != q && g !in h.live && q !in h.live && s8.heap.live == h.live + {g, q}
  {
    var s7 := SetGids(Some(e), Some(gids), count, GidStorageSize, ValidAllocator, h, true);
    var e7 := s7.info.value;
    assert OwnedPtrs(e7) == OwnedPtrs(e) + {e7.endpointGids.value.ptr};
    var s8 := SetQosProfiles(s7.info, Some(qos), count, ValidAllocator, s7.heap, true);
    var e8 := s8.info.value;
    assert OwnedPtrs(e8) == OwnedPtrs(e7) + {e8.qosProfiles.value.ptr};
  }

  /**
   * The setters overwrite an owned field without freeing it: setting the node
   * name twice and then finalizing leaves the first copy allocated.
   */
  lemma ResettingNodeNameLeaksFirstCopy(info: EndpointInfo, first: string, second: string, h: Heap)
    requires OwnedPtrs(info) <= h.live
    ensures
      var s1 := SetNodeName(Some(info), Some(first), ValidAllocator, h, true);
      var s2 := SetNodeName(s1.info, Some(second), ValidAllocator, s1.heap, true);
      var f := Fini(s2.info, ValidAllocator, s2.heap);
      && f.ret == Ok
      && s1.info.value.nodeName.value.ptr in f.heap.live
      && s1.info.value.nodeName.value.ptr !in h.live
  {
    var s1 := SetNodeName(Some(info), Some(first), ValidAllocator, h, true);
    var s2 := SetNodeName(s1.info, Some(second), ValidAllocator, s1.heap, true);
    var p := s1.info.value.nodeName.value.ptr;
    var q := s2.info.value.nodeName.value.ptr;
    assert OwnedPtrs(s2.info.value) <= OwnedPtrs(info) + {q};
  }
}

=== FILE: service_endpoint_info_array.dfy ===
/**
 * `rmw_service_endpoint_info_array_t`: a `size` and a contiguous owned buffer
 * of records.  Initialization fills the buffer with zero records;
 * finalization composes the per-record finalization.
 */
module ServiceEndpointInfoArray {
  import opened Wrappers
  import opened Allocator
  import opened ServiceEndpointInfo

  /**
   * `size` is stored separately from the buffer because a failed
   * initialization clears the buffer pointer but keeps the old size.
   */
  datatype InfoArray = InfoArray(size: nat, infoArray: Option<Owned<seq<EndpointInfo>>>)

  datatype ArrayStep = ArrayStep(ret: RetCode, arr: Option<InfoArray>, heap: Heap)

  /** `rmw_get_zero_initialized_service_endpoint_info_array`. */
  function ZeroInitializedArray(): (z: InfoArray)
    ensures z.size == 0 && z.infoArray.None?
  {
    InfoArray(0, None)
  }

  /** `rmw_service_endpoint_info_array_check_zero`: reads only. */
  function CheckZero(arr: Option<InfoArray>): (r: RetCode)
    ensures r == InvalidArgument <==> arr.None?
    ensures r == Ok <==> arr == Some(ZeroInitializedArray())
    ensures r == Error <==> arr.Some? && (arr.value.size != 0 || arr.value.infoArray.Some?)
  {
    if arr.None? then InvalidArgument
    else if arr.value.size != 0 || arr.value.infoArray.Some? then Error
    else Ok
  }

  /**
   * `rmw_service_endpoint_info_array_init_with_size`.  The allocator is
   * checked before the array and only for NULL.  The previous contents are
   * neither checked nor freed.  On allocation failure the buffer pointer is
   * overwritten with NULL and `size` keeps its old value.
   */
  function InitWithSize(arr: Option<InfoArray>, size: nat, allocator: AllocatorRef,
                        h: Heap, allocOk: bool): (r: ArrayStep)
    requires arr.Some? && !allocator.NullAllocator? ==> allocator.ValidAllocator?
    ensures r.ret == InvalidArgument <==> allocator.NullAllocator? || arr.None?
    ensures r.ret == Ok <==> r.ret != InvalidArgument && allocOk
    ensures r.ret == BadAlloc <==> r.ret != InvalidArgument && !allocOk
    ensures r.ret == InvalidArgument ==> r.arr == arr && r.heap == h
    ensures r.ret == BadAlloc ==> r.arr == Some(arr.value.(infoArray := None)) && r.heap == h
    ensures r.ret == Ok ==>
              && r.arr.Some? && r.arr.value.size == size
              && FreshCopy(h, r.heap, r.arr.value.infoArray, seq(size, _ => ZeroInitialized()))
  {
    if allocator.NullAllocator? then ArrayStep(InvalidArgument, arr, h)
    else if arr.None? then ArrayStep(InvalidArgument, arr, h)
    else
      var a := Allocate(h, allocOk);
      match a.ptr
      case None => ArrayStep(BadAlloc, Some(arr.value.(infoArray := None)), a.heap)
      case Some(p) =>
        ArrayStep(Ok, Some(InfoArray(size, Some(Owned(p, seq(size, _ => ZeroInitialized()))))), a.heap)
  }

  /** The buffers owned by records `lo .. hi - 1` of `s`. */
  function OwnedByRecords(s: seq<EndpointInfo>, lo: nat, hi: nat): set<Ptr>
    requires lo <= hi <= |s|
    decreases hi - lo
  {
    if lo == hi then {} else OwnedPtrs(s[lo]) + OwnedByRecords(s, lo + 1, hi)
  }

  /** Every buffer the array owns: its own storage and everything its records own. */
  function OwnedByArray(a: InfoArray): set<Ptr>
    requires a.infoArray.Some? ==> a.size <= |a.infoArray.value.contents|
  {
    match a.infoArray
    case None => {}
    case Some(b) => {b.ptr} + OwnedByRecords(b.contents, 0, a.size)
  }

  /**
   * The loop finalizing records `i .. size - 1` in index order.  A record
   * whose finalization fails stops the loop and its code is returned as is.
   */
  datatype RecordsStep = RecordsStep(ret: RetCode, records: seq<EndpointInfo>, heap: Heap)

  function FiniRecords(records: seq<EndpointInfo>, i: nat, size: nat, allocator: AllocatorRef,
                       h: Heap): RecordsStep
    requires i <= size <= |records|
    requires allocator.ValidAllocator?
    decreases size - i
  {
    if i == size then RecordsStep(Ok, records, h)
    else
      var step := ServiceEndpointInfo.Fini(Some(records[i]), allocator, h);
      if step.ret != Ok then RecordsStep(step.ret, records, step.heap)
      else
        match step.info
        case None => RecordsStep(step.ret, records, step.heap)
        case Some(z) => FiniRecords(records[i := z], i + 1, size, allocator, step.heap)
  }

  /**
   * `rmw_service_endpoint_info_array_fini`.  The loop dereferences
   * `info_array[i]` for every `i < size`, so a non-empty array must have a
   * buffer of at least `size` records.
   */
  function Fini(arr: Option<InfoArray>, allocator: AllocatorRef, h: Heap): (r: ArrayStep)
    requires arr.Some? && !allocator.NullAllocator? ==> allocator.ValidAllocator?
    requires arr.Some? && !allocator.NullAllocator? ==>
               match arr.value.infoArray
               case None => arr.value.size == 0
               case Some(b) => arr.value.size <= |b.contents|
    ensures r.ret == InvalidArgument <== allocator.NullAllocator? || arr.None?
    ensures allocator.NullAllocator? || arr.None? ==> r.arr == arr && r.heap == h
    ensures r.ret == Ok ==> r.arr == Some(ZeroInitializedArray())
  {
    if allocator.NullAllocator? then ArrayStep(InvalidArgument, arr, h)
    else if arr.None? then ArrayStep(InvalidArgument, arr, h)
    else
      var a := arr.value;
      match a.infoArray
      case None => ArrayStep(Ok, Some(ZeroInitializedArray()), h)
      case Some(b) =>
        var f := FiniRecords(b.contents, 0, a.size, allocator, h);
        if f.ret != Ok then ArrayStep(f.ret, Some(a.(infoArray := Some(b.(contents := f.records)))), f.heap)
        else ArrayStep(Ok, Some(ZeroInitializedArray()), Deallocate(f.heap, a.infoArray))
  }

  // ---------------------------------------------------- composed lifecycle

  /** The buffers of a range depend only on the records in that range. */
  lemma {:induction false} OwnedByRecordsFrame(s: seq<EndpointInfo>, t: seq<EndpointInfo>, lo: nat, hi: nat)
    requires lo <= hi <= |s| && hi <= |t|
    requires forall k :: lo <= k < hi ==> s[k] == t[k]
    ensures OwnedByRecords(s, lo, hi) == OwnedByRecords(t, lo, hi)
    decreases hi - lo
  {
    if lo < hi {
      OwnedByRecordsFrame(s, t, lo + 1, hi);
    }
  }

  /** Zero records own nothing. */
  lemma {:induction false} ZeroRecordsOwnNothing(s: seq<EndpointInfo>, lo: nat, hi: nat)
    requires lo <= hi <= |s|
    requires forall k :: lo <= k < hi ==> s[k] == ZeroInitialized()
    ensures OwnedByRecords(s, lo, hi) == {}
    decreases hi - lo
  {
    if lo < hi {
      ZeroRecordsOwnNothing(s, lo + 1, hi);
    }
  }

  /**
   * With a usable allocator no record finalization can fail, so the loop
   * always runs to the end: every record in the range becomes the zero
   * record, the others are untouched, and exactly the buffers those records
   * owned are released.
   */
  lemma {:induction false} FiniRecordsSucceeds(records: seq<EndpointInfo>, i: nat, size: nat,
                                               allocator: AllocatorRef, h: Heap)
    requires i <= size <= |records|
    requires allocator.ValidAllocator?
    ensures
      var f := FiniRecords(records, i, size, allocator, h);
      && f.ret == Ok
      && |f.records| == |records|
      && (forall k :: i <= k < size ==> f.records[k] == ZeroInitialized())
      && (forall k :: 0 <= k < |records| && !(i <= k < size) ==> f.records[k] == records[k])
      && f.heap.live == h.live - OwnedByRecords(records, i, size)
      && f.heap.next == h.next
    decreases size - i
  {
    if i < size {
      var step := ServiceEndpointInfo.Fini(Some(records[i]), allocator, h);
      var next := records[i := step.info.value];
      FiniRecordsSucceeds(next, i + 1, size, allocator, step.heap);
      OwnedByRecordsFrame(records, next, i + 1, size);
    }
  }

  /**
   * Array finalization with both arguments present always succeeds: the
   * early return on a failing record is unreachable.  The array becomes the
   * zero array and its storage and every record's buffers are released.
   */
  lemma FiniSucceedsOnValidArguments(a: InfoArray, h: Heap)
    requires match a.infoArray
             case None => a.size == 0
             case Some(b) => a.size <= |b.contents|
    ensures
      var r := Fini(Some(a), ValidAllocator, h);
      && r.ret == Ok
      && r.arr == Some(ZeroInitializedArray())
      && r.heap.live == h.live - OwnedByArray(a)
      && r.heap.next == h.next
  {
    if a.infoArray.Some? {
      FiniRecordsSucceeds(a.infoArray.value.contents, 0, a.size, ValidAllocator, h);
    }
  }

  /**
   * Initializing a zero array to `n` records and finalizing it without
   * populating any record returns to the zero array with nothing leaked.
   */
  lemma InitThenFiniRestoresZero(n: nat, h: Heap)
    ensures
      var init := InitWithSize(Some(ZeroInitializedArray()), n, ValidAllocator, h, true);
      var fini := Fini(init.arr, ValidAllocator, init.heap);
      && init.ret == Ok && init.arr.value.size == n
      && fini.ret == Ok && fini.arr == Some(ZeroInitializedArray())
      && fini.heap.live == h.live
  {
    var init := InitWithSize(Some(ZeroInitializedArray()), n, ValidAllocator, h, true);
    var b := init.arr.value.infoArray.value;
    ZeroRecordsOwnNothing(b.contents, 0, n);
    FiniSucceedsOnValidArguments(init.arr.value, init.heap);
  }
}

=== FILE: wrappers.dfy ===
/** Optional values, used wherever the C code passes a pointer that may be NULL. */
module Wrappers {

  /** `None` stands for a NULL pointer, `Some(v)` for a pointer to `v`. */
  datatype Option<+T> = None | Some(value: T)
}
